=== FILE: README.md ===
# Special effect editor timeline, in Dafny

This project models the timeline core of a Unity editor extension for authoring
special effects: timed compositions of elements (particles, animations) shown
against a reference model that can play a sequence of animation clips.

Modelled, with times as exact `real` numbers:

- **The reference model's action list** (`SpeEditorActionManager`, module
  `ActionSequence`). Clips play back to back. `FindOutCurrAction` maps a global
  time to the clip playing then and the time inside it: the first clip whose
  window `[sum of earlier lengths, that sum + its length)` holds the time; when
  no window does, the last clip at its full length; with no clips, nothing and
  zero. With non-negative lengths the windows cover exactly `[0, TotalTime)`
  (`WindowsCoverTotal`), so the clamp to the last clip happens exactly for
  times before zero or at or past the total.
- **Bind-pose paths** (module `BindPose`). The transform hierarchy is a tree of
  named nodes. `CalcPath` walks a node's parent chain up to the root and
  returns the names strictly below the root joined by `/`, `""` for the root
  itself. `RegisterDefaultBindPose` drains a queue breadth-first and records
  one path per node, the root's `""` first; it is proved equal to the
  reference walk `BindPosePaths`. Node identity (the source compares
  `Transform` references) is the node's address, the child indices leading to
  it, which is unique within the tree.
- **The effect proxy** (`SpecialEffectEditProxy`, module `EditProxy`):
  translation between the effect's own time and the preview timeline (each the
  inverse of the other), the `StartTime` setter that clamps to zero, the total
  time as the latest element end (`LatestEnd` in module `Timeline`), the dirty
  flag, the element readers `GetItemTimeInfo` and `GetItemStateInfo`, and
  `SetItemStateInfo` by index and by element (`SetItemStateInfoOf`, as Dafny
  has no overloading).
- **Reference effects** (`RefSpecialEffectManager`, module `RefEffects`) and
  the **editor model** (`SpecialEffectEditorModel`, module `EditorModel`): the
  preview length as the latest end of the edited and the reference effects,
  the reference model's play time derived from the preview play time by the
  two speed scales, and the selected item.
- **The effect element** (`SpecialEffectElement`, module `Element`): the
  play-interval test, field-wise equality and copying, the playing flag, the
  `canShow` gate on the active flag, and `UpdateState`. The Unity game object
  is reduced to its `activeSelf` flag; every operation keeps the invariant
  that a hidden element is not active (`Valid`).

Behaviour of the code that the model keeps as written:

- Every by-index operation of the proxy checks its index with
  `i < 0 && i >= Count`, which no index satisfies (`IndexGuardAsWritten`).
  Those operations therefore always report success, and an index out of range
  reaches the list access, which throws. The model states the range as a
  `requires` and promises success. `SetItemSelectIndx` uses the same test, so
  it stores every index as given, including out-of-range ones. Only
  `RefSpecialEffectManager.GetAt` checks its index with `||` and returns null
  for an index out of range.
- `UpdateModelCurrPlayTime(t)` does not use `t`: it scales the play time
  already recorded. `SetCurrPlayTime(t)` calls it before recording `t`, so the
  reference model's play time follows the previous preview time.

The source is C#; `SpecialEffectUtility.timeEpsilon` is not part of this model
beyond being positive (`TimeEpsilon`), and `float.GetHashCode` is an arbitrary
fixed function (`FloatHash`). The `SpecialEffect` class is not part of this
model: the two of its fields the proxy uses, the element list and the total
time, are fields of the proxy. An `AnimationClip` reference that may be null
is an `Option<Clip>`.

## Model

| member | source | states |
|---|---|---|
| `Timeline.LatestEnd` | Assets/H3DTech/Editor/UniversalEditor/SpecialEffectEditor/SpecialEffectEditorModel.cs:725-734 | the running maximum from zero is at least zero, at least every end time, and either zero or one of the end times |
| `Timeline.Max` | Assets/H3DTech/Editor/UniversalEditor/SpecialEffectEditor/SpecialEffectEditorModel.cs:909 | `Mathf.Max` is at least both arguments and equal to one of them |
| `Element.SpecialEffectElement.constructor` | Assets/H3DTech/Scripts/SpecialEffectScripts/SpecialEffectElement.cs:13-33 | field initialisers: start 0, looping, play time 0, shown, not playing, speed scale 1 |
| `Element.SpecialEffectElement.IsInPlayTimeInterval` | Assets/H3DTech/Scripts/SpecialEffectScripts/SpecialEffectElement.cs:262-283 | false whenever play time is at most 0; for a looping element, true exactly from the start time on; otherwise true exactly from the start time until the end plus TimeEpsilon |
| `Element.SpecialEffectElement.CalcLocalTime` | Assets/H3DTech/Scripts/SpecialEffectScripts/SpecialEffectElement.cs:285-288 | the local time plus the start time is the elapsed time; inside the play interval it is non-negative, and below play time plus epsilon when not looping |
| `Element.SpecialEffectElement.Equals` | Assets/H3DTech/Scripts/SpecialEffectScripts/SpecialEffectElement.cs:63-86 | true exactly for a non-null element of the same class with equal start time, play time and loop flag |
| `Element.EqualsIsSymmetric` | Assets/H3DTech/Scripts/SpecialEffectScripts/SpecialEffectElement.cs:63-86 | element equality is symmetric |
| `Element.SpecialEffectElement.GetHashCode` | Assets/H3DTech/Scripts/SpecialEffectScripts/SpecialEffectElement.cs:88-91 | the hash of the start time alone |
| `Element.SpecialEffectElement.IsPlaying` | Assets/H3DTech/Scripts/SpecialEffectScripts/SpecialEffectElement.cs:151-154 | true exactly when the element is playing |
| `Element.SpecialEffectElement.IsEnable` | Assets/H3DTech/Scripts/SpecialEffectScripts/SpecialEffectElement.cs:156-159 | true exactly when the game object is active |
| `Element.EqualElementsHashEqually` | Assets/H3DTech/Scripts/SpecialEffectScripts/SpecialEffectElement.cs:88-91 | equal elements have equal hash codes, the hash depending on the start time only |
| `Element.SpecialEffectElement.CopyValues` | Assets/H3DTech/Scripts/SpecialEffectScripts/SpecialEffectElement.cs:105-126 | succeeds exactly for a non-null element that is this one or of the same class; on success the three timing fields equal the source's and `Equals` holds; on failure nothing changes |
| `Element.SpecialEffectElement.SetEnable` | Assets/H3DTech/Scripts/SpecialEffectScripts/SpecialEffectElement.cs:161-167 | the active flag becomes the argument only while the element may be shown; keeps the hidden-means-inactive invariant |
| `Element.SpecialEffectElement.Play` | Assets/H3DTech/Scripts/SpecialEffectScripts/SpecialEffectElement.cs:169-174 | the element is playing |
| `Element.SpecialEffectElement.Pause` | Assets/H3DTech/Scripts/SpecialEffectScripts/SpecialEffectElement.cs:176-181 | the element is not playing |
| `Element.SpecialEffectElement.Stop` | Assets/H3DTech/Scripts/SpecialEffectScripts/SpecialEffectElement.cs:183-188 | the element is not playing |
| `Element.SpecialEffectElement.Reset` | Assets/H3DTech/Scripts/SpecialEffectScripts/SpecialEffectElement.cs:190-202 | the playing flag is unchanged |
| `Element.SpecialEffectElement.SetCurrPlayTime` | Assets/H3DTech/Scripts/SpecialEffectScripts/SpecialEffectElement.cs:204-211 | the current play time is the argument |
| `Element.SpecialEffectElement.UpdateState` | Assets/H3DTech/Scripts/SpecialEffectScripts/SpecialEffectElement.cs:214-240 | inside the interval a showable element becomes active and the playing flag is kept; outside it an active element stops playing and is deactivated unless hidden; an inactive one is left alone; keeps the invariant, under which an element outside its interval always ends inactive |
| `Element.SpecialEffectElement.SetCanShow` | Assets/H3DTech/Scripts/SpecialEffectScripts/SpecialEffectElement.cs:34-56 | stores the flag; hiding deactivates; showing activates exactly when the current play time is inside the interval, stopping an element it deactivates; the invariant holds afterwards |
| `Element.SpecialEffectElement.UpdatePlayingState` | Assets/H3DTech/Scripts/SpecialEffectScripts/SpecialEffectElement.cs:242-259 | an element inside its interval that is not playing starts playing, seeked to the time, with its speed scale restored; otherwise nothing changes |
| `Element.SpecialEffectElement.SetSpeedScale` | Assets/H3DTech/Scripts/SpecialEffectScripts/SpecialEffectElement.cs:325-333 | the speed scale is the argument |
| `BindPose.Join` | Assets/H3DTech/Editor/UniversalEditor/SpecialEffectEditor/SpecialEffectEditorModel.cs:125-140 | joining no names gives `""`; a joined path starts with its first name, so it has no leading separator added |
| `BindPose.SlashedIsJoinAfterFirst` | Assets/H3DTech/Editor/UniversalEditor/SpecialEffectEditor/SpecialEffectEditorModel.cs:130-137 | the string built by prefixing `/` to each name starts with `/`, and dropping that first `/` leaves the names joined by `/` |
| `BindPose.TopDownNames` | Assets/H3DTech/Editor/UniversalEditor/SpecialEffectEditor/SpecialEffectEditorModel.cs:128-131 | the names of a parent chain in top-down order: position k from the top holds the k-th node from the far end |
| `BindPose.TopDownNamesExtend` | Assets/H3DTech/Editor/UniversalEditor/SpecialEffectEditor/SpecialEffectEditorModel.cs:130 | walking one node further up puts that node's name in front |
| `BindPose.IndexOf` | Assets/H3DTech/Editor/UniversalEditor/SpecialEffectEditor/SpecialEffectEditorModel.cs:133 | `String.IndexOf`: -1 exactly when the character is absent, else its first position |
| `BindPose.RootIndex` | Assets/H3DTech/Editor/UniversalEditor/SpecialEffectEditor/SpecialEffectEditorModel.cs:128 | the walk up stops at the first node that is the root, or at the end of the chain |
| `BindPose.VisitShrinksQueue` | Assets/H3DTech/Editor/UniversalEditor/SpecialEffectEditor/SpecialEffectEditorModel.cs:73-92 | replacing the queue's head by its children leaves one node fewer to visit, so the walk ends |
| `BindPose.LevelOrderLength` | Assets/H3DTech/Editor/UniversalEditor/SpecialEffectEditor/SpecialEffectEditorModel.cs:73-92 | the walk records exactly one path per node reachable from the queue |
| `BindPose.BindPosePathsPerNode` | Assets/H3DTech/Editor/UniversalEditor/SpecialEffectEditor/SpecialEffectEditorModel.cs:63-94 | the bind pose has one path per node of the model and the first is the root's `""` |
| `BindPose.ChildrenPlacedMatch` | Assets/H3DTech/Editor/UniversalEditor/SpecialEffectEditor/SpecialEffectEditorModel.cs:88-91 | each enqueued child's parent chain ends at the root and spells the parent's names below the root followed by the child's name |
| `BindPose.VisitPlaced` | Assets/H3DTech/Editor/UniversalEditor/SpecialEffectEditor/SpecialEffectEditorModel.cs:75-91 | a dequeued node's walk up stops at the root, its path is its names below the root, and the updated queue stands for the next step of the reference walk |
| `BindPose.VisitStep` | Assets/H3DTech/Editor/UniversalEditor/SpecialEffectEditor/SpecialEffectEditorModel.cs:75-91 | one turn of the walk loop: recording the dequeued node's path and enqueueing its children leaves the recorded paths followed by the rest of the walk unchanged, keeps every queued node well placed, and leaves fewer nodes to visit |
| `ActionSequence.TotalLength` | Assets/H3DTech/Editor/UniversalEditor/SpecialEffectEditor/SpecialEffectEditorModel.cs:308-319 | with no negative length, the sum of the lengths is not negative and at least every single length |
| `ActionSequence.TotalLengthAppend` | Assets/H3DTech/Editor/UniversalEditor/SpecialEffectEditor/SpecialEffectEditorModel.cs:308-319 | appending an action adds exactly its length to the total |
| `ActionSequence.WindowBounds` | Assets/H3DTech/Editor/UniversalEditor/SpecialEffectEditor/SpecialEffectEditorModel.cs:204-223 | with non-negative lengths every clip window starts at 0 or later and ends by the total |
| `ActionSequence.WindowsCoverTotal` | Assets/H3DTech/Editor/UniversalEditor/SpecialEffectEditor/SpecialEffectEditorModel.cs:204-223 | with non-negative lengths some window holds t if and only if 0 <= t < total |
| `ActionSequence.SpeEditorActionManager.constructor` | Assets/H3DTech/Editor/UniversalEditor/SpecialEffectEditor/SpecialEffectEditorModel.cs:305-326 | no actions and no bind pose |
| `ActionSequence.SpeEditorActionManager.AddAction` | Assets/H3DTech/Editor/UniversalEditor/SpecialEffectEditor/SpecialEffectEditorModel.cs:166-171 | fails, leaving the list unchanged, exactly when the clip is null (the action constructor reads its length before the list is touched); otherwise exactly one new action for the clip, at its start, appended after the unchanged earlier ones, and the total grows by the clip's length |
| `ActionSequence.SpeEditorActionManager.Clear` | Assets/H3DTech/Editor/UniversalEditor/SpecialEffectEditor/SpecialEffectEditorModel.cs:173-176 | the list is empty and its total is 0 |
| `ActionSequence.SpeEditorActionManager.TotalTime` | Assets/H3DTech/Editor/UniversalEditor/SpecialEffectEditor/SpecialEffectEditorModel.cs:308-319 | the sum of the action lengths; non-negative, and at least the last length, when lengths are |
| `ActionSequence.SpeEditorActionManager.FindOutCurrAction` | Assets/H3DTech/Editor/UniversalEditor/SpecialEffectEditor/SpecialEffectEditorModel.cs:204-223 | none and 0 for no actions; else the first clip whose window holds t with local time t minus its offset, in [0, length); when no window holds t (with non-negative lengths: t < 0 or t >= total), the last clip with local time its length |
| `ActionSequence.SpeEditorActionManager.CalcPath` | Assets/H3DTech/Editor/UniversalEditor/SpecialEffectEditor/SpecialEffectEditorModel.cs:125-140 | the names met below the root (or up to a null parent) joined top-down by `/`; `""` for the root itself |
| `ActionSequence.SpeEditorActionManager.EnqueueChildren` | Assets/H3DTech/Editor/UniversalEditor/SpecialEffectEditor/SpecialEffectEditorModel.cs:88-91 | the children are enqueued behind the queue in child order, each with its parent chain |
| `ActionSequence.SpeEditorActionManager.RegisterDefaultBindPose` | Assets/H3DTech/Editor/UniversalEditor/SpecialEffectEditor/SpecialEffectEditorModel.cs:63-94 | the recorded paths are the breadth-first reference walk: one per node, root's `""` first |
| `EditProxy.IndexGuardAsWritten` | Assets/H3DTech/Editor/UniversalEditor/SpecialEffectEditor/SpecialEffectEditorModel.cs:630-633 | the index check `i < 0 && i >= Count` rejects no index |
| `EditProxy.SpecialEffectEditProxy.constructor` | Assets/H3DTech/Editor/UniversalEditor/SpecialEffectEditor/SpecialEffectEditorModel.cs:334-343 | wraps the element list, not dirty, start 0, total time the latest element end |
| `EditProxy.SpecialEffectEditProxy.Trans2GlobalTime` | Assets/H3DTech/Editor/UniversalEditor/SpecialEffectEditor/SpecialEffectEditorModel.cs:715-718 | the global time minus the start time is the local time |
| `EditProxy.SpecialEffectEditProxy.Trans2LocalTime` | Assets/H3DTech/Editor/UniversalEditor/SpecialEffectEditor/SpecialEffectEditorModel.cs:720-723 | the local time plus the start time is the global time |
| `EditProxy.SpecialEffectEditProxy.TranslationsInvert` | Assets/H3DTech/Editor/UniversalEditor/SpecialEffectEditor/SpecialEffectEditorModel.cs:715-723 | the two translations undo each other, both ways round |
| `EditProxy.SpecialEffectEditProxy.SetStartTime` | Assets/H3DTech/Editor/UniversalEditor/SpecialEffectEditor/SpecialEffectEditorModel.cs:804-818 | the stored start is never negative: the value when non-negative, else 0 |
| `EditProxy.SpecialEffectEditProxy.RecalcTotalTime` | Assets/H3DTech/Editor/UniversalEditor/SpecialEffectEditor/SpecialEffectEditorModel.cs:725-734 | total time becomes the latest element end: at least 0, at least every start plus play time, and 0 or one of them |
| `EditProxy.SpecialEffectEditProxy.SetIsDirty` | Assets/H3DTech/Editor/UniversalEditor/SpecialEffectEditor/SpecialEffectEditorModel.cs:746-757 | the dirty flag is the argument |
| `EditProxy.SpecialEffectEditProxy.SetItemStateInfo` | Assets/H3DTech/Editor/UniversalEditor/SpecialEffectEditor/SpecialEffectEditorModel.cs:630-637 | always succeeds; element i's loop flag is the argument, its other fields are unchanged, the effect is dirty, and an up-to-date total time stays up to date |
| `EditProxy.SpecialEffectEditProxy.GetItemTimeInfo` | Assets/H3DTech/Editor/UniversalEditor/SpecialEffectEditor/SpecialEffectEditorModel.cs:411-419 | always succeeds; the start is element i's start translated to the preview timeline and the length its play time; when the total time is up to date the element ends by the effect's end |
| `EditProxy.SpecialEffectEditProxy.GetItemStateInfo` | Assets/H3DTech/Editor/UniversalEditor/SpecialEffectEditor/SpecialEffectEditorModel.cs:606-613 | always succeeds with element i's loop flag |
| `EditProxy.SpecialEffectEditProxy.SetItemStateInfoOf` | Assets/H3DTech/Editor/UniversalEditor/SpecialEffectEditor/SpecialEffectEditorModel.cs:639-652 | succeeds exactly when the element is in the list (by reference); then its loop flag is the argument, every other field of it is unchanged, the effect is dirty and an up-to-date total time stays up to date; otherwise neither the dirty flag nor the element changes |
| `RefEffects.RefSpecialEffectManager.constructor` | Assets/H3DTech/Editor/UniversalEditor/SpecialEffectEditor/SpecialEffectEditorModel.cs:868 | the list is empty |
| `RefEffects.RefSpecialEffectManager.Add` | Assets/H3DTech/Editor/UniversalEditor/SpecialEffectEditor/SpecialEffectEditorModel.cs:870-873 | the proxy is appended after the unchanged earlier ones |
| `RefEffects.RefSpecialEffectManager.Clear` | Assets/H3DTech/Editor/UniversalEditor/SpecialEffectEditor/SpecialEffectEditorModel.cs:882-889 | the list is empty, so the reference effects need no preview length |
| `RefEffects.RefSpecialEffectManager.GetCount` | Assets/H3DTech/Editor/UniversalEditor/SpecialEffectEditor/SpecialEffectEditorModel.cs:891-894 | the number of reference effects in the list |
| `RefEffects.RefSpecialEffectManager.GetAt` | Assets/H3DTech/Editor/UniversalEditor/SpecialEffectEditor/SpecialEffectEditorModel.cs:875-880 | the proxy at i when 0 <= i < count, null otherwise |
| `RefEffects.RefSpecialEffectManager.GetPreviewTotalTime` | Assets/H3DTech/Editor/UniversalEditor/SpecialEffectEditor/SpecialEffectEditorModel.cs:904-912 | the latest proxy end: at least 0, at least every start plus total time, and 0 or one of them |
| `EditorModel.ModelPlayTime` | Assets/H3DTech/Editor/UniversalEditor/SpecialEffectEditor/SpecialEffectEditorModel.cs:1753-1768 | never negative; above effect speed 0.01 it times the effect speed is the play time times the model speed, clamped at 0; otherwise it is the play time times the model speed, clamped at 0 |
| `EditorModel.SpecialEffectEditorModel.constructor` | Assets/H3DTech/Editor/UniversalEditor/SpecialEffectEditor/SpecialEffectEditorModel.cs:976-994 | no edited effect, no reference effects, times 0, speed scales 1, selection -1 (none) |
| `EditorModel.SpecialEffectEditorModel.GetPreviewTotalTime` | Assets/H3DTech/Editor/UniversalEditor/SpecialEffectEditor/SpecialEffectEditorModel.cs:1082-1097 | the later of the edited effect's end and the reference effects' latest end: at least 0 and at least every effect's end |
| `EditorModel.SpecialEffectEditorModel.UpdateModelCurrPlayTime` | Assets/H3DTech/Editor/UniversalEditor/SpecialEffectEditor/SpecialEffectEditorModel.cs:1753-1768 | the model play time is the recorded play time scaled by the speeds, never negative; the argument is not used |
| `EditorModel.SpecialEffectEditorModel.SetCurrPlayTime` | Assets/H3DTech/Editor/UniversalEditor/SpecialEffectEditor/SpecialEffectEditorModel.cs:1569-1575 | the play time is the argument; the model play time is derived from the previous play time and is never negative |
| `EditorModel.SpecialEffectEditorModel.SetItemSelectIndx` | Assets/H3DTech/Editor/UniversalEditor/SpecialEffectEditor/SpecialEffectEditorModel.cs:1099-1115 | the selection is the argument, whatever its range |

## Left out

- Unity animation plumbing: `_SetCurrPlayAction`, `_SetCurrPlayActionTime`, `_ResetAnimatorOverrideController`, `_InitActionResources` and `SpeEditorActionManager.SetCurrPlayTime`, which drives them; they are calls into Animator, AnimatorOverrideController and `Resources.Load`.
- Bind-pose transform values (positions, rotations, scales), `_ApplyDefaultBindPose`, `ShowDefaultBindPose`, `UpdateDefaultBindPoseLocalScale`, `ForceBindTarget` and `SetRefModelScale`: floating-point geometry on Unity transforms; only the paths are kept.
- Asset, prefab, selection and dialog operations (`OpenRefModelFromFile`, `OpenVirtualSceneFromFile`, `SetEditTarget`, `AddRefSpe`, `Destroy`, `LoadActionFromFile`, `ShowSelectElemInspector` and the like): editor I/O and UI.
- `SpecialEffect` and `SpecialEffectEditorUtility` are not part of this model; so `SetItemStartTime`, `SetItemPlayTime` and `SetItemDelayTime` (which go through `FixElemStartTime`, `FixElemPlayTime`, `FixElemDelayTime` and `GetElemDelayTime`), and the asset marking of the `IsDirty` setter, are left out.
- `GetItemName` and `GetItemDelayTime`: they read the element's game-object name and the delay computed by `SpecialEffectEditorUtility`, neither of which is part of this model.
- The by-element forms of `GetItemTimeInfo` and `GetItemStateInfo`: the same reference search as `SetItemStateInfoOf`, handing the first match to the modelled by-index reader; they add nothing beyond that search.
- The proxy's `CurrPlayTime` setter, and `RefSpecialEffectManager.SetCurrPlayTime` and the binding operations: they only forward to the not-modelled `SpecialEffect` and its game object.
- `RefEffects.RefSpecialEffectManager.Clear`: destroys each proxy's effect (an editor operation, left out with `Destroy`) before emptying the list; only the emptying is modelled.
- `ApplyCurrPlayTime`: it hands the model play time to `SpeEditorActionManager.SetCurrPlayTime` (which drives the animator through `FindOutCurrAction`) and the play time to the proxies' `CurrPlayTime` setters, all of which are left out above; it adds no logic of its own.
- The `On*` delegates, the `Notify*` methods and the undo hooks (`OnBeforeCmdExecute`, `OnAfterCmdExecute`, `OnUndoRedo`): callback plumbing into the engine and the editor window.
- The virtual hooks `_PlayImpl`, `_PauseImpl`, `_ResetImpl`, `_SetCurrPlayTime`, `_CustomOperate`, `UpdateSpeed` and `_Init`, empty in the base class; the subclasses are not part of this model.
- The client-build branch of `_CopyValues`, which always fails; the model is the editor build.
- IEEE single-precision rounding: times and scales are exact reals, so the translation round trip and the sums hold exactly.
- The `GetInstance` singleton and the Unity lifecycle methods `Awake`, `Start`, `OnEnable` and `OnDisable`.
- `ActionSequence.SpeEditorActionManager.AddAction`: a null clip makes the source throw a NullReferenceException before the list changes; the model reports it as the result `false` with the list unchanged, and does not model the exception reaching `AddRefModelAction`, which does not catch it.
- `ActionSequence.SpeEditorActionManager.FindOutCurrAction`: returns the index of the clip rather than the action object.
- `ActionSequence.SpeEditorActionManager.CalcPath`: takes the node's parent chain as a sequence rather than following `parent` references; the chain of a node inside the model ends at the model's root.

=== FILE: action_manager.dfy ===
/**
 * The reference model's action list (SpeEditorActionManager): animation clips
 * played back to back, the lookup from a global time to the clip playing at
 * that time, and the paths of the model's bind pose.
 */
module ActionSequence {
  import opened Wrappers
  import opened BindPose

  /** An AnimationClip; only its name and length matter here. */
  datatype Clip = Clip(name: string, length: real)

  /** A SpeEditorAction: its clip, the clip's length taken at creation, and a play position. */
  datatype Action = Action(clip: Clip, length: real, currPlayTime: real)

  /**
   * The summed lengths of a list of actions. With no negative length the sum
   * is not negative and bounds every single length.
   */
  function TotalLength(actions: seq<Action>): (r: real)
    ensures NonNegativeLengths(actions) ==> r >= 0.0
    ensures NonNegativeLengths(actions) ==> forall k :: 0 <= k < |actions| ==> actions[k].length <= r
  {
    if actions == [] then 0.0
    else TotalLength(actions[..|actions| - 1]) + actions[|actions| - 1].length
  }

  /** Where action `k` starts on the global timeline: the lengths before it. */
  function Offset(actions: seq<Action>, k: nat): real
    requires k <= |actions|
  {
    TotalLength(actions[..k])
  }

  /** Action `k`'s window [Offset, Offset + length) holds time `t`. */
  predicate InWindow(actions: seq<Action>, k: nat, t: real)
    requires k < |actions|
  {
    Offset(actions, k) <= t < Offset(actions, k) + actions[k].length
  }

  predicate NonNegativeLengths(actions: seq<Action>)
  {
    forall k :: 0 <= k < |actions| ==> actions[k].length >= 0.0
  }

  lemma OffsetStep(actions: seq<Action>, k: nat)
    requires k < |actions|
    ensures Offset(actions, k + 1) == Offset(actions, k) + actions[k].length
  {
    assert actions[..k + 1][..k] == actions[..k];
  }

  /** Appending an action extends the total by exactly its length. */
  lemma TotalLengthAppend(actions: seq<Action>, a: Action)
    ensures TotalLength(actions + [a]) == TotalLength(actions) + a.length
  {
    assert (actions + [a])[..|actions|] == actions;
  }

  /** Windows of an action list are the windows of any longer list it starts. */
  lemma OffsetOfPrefix(actions: seq<Action>, n: nat, k: nat)
    requires k <= n <= |actions|
    ensures Offset(actions[..n], k) == Offset(actions, k)
  {
    assert actions[..n][..k] == actions[..k];
  }

  /** With non-negative lengths, each window lies within [0, TotalLength). */
  lemma {:induction false} WindowBounds(actions: seq<Action>, k: nat)
    requires NonNegativeLengths(actions)
    requires k < |actions|
    ensures 0.0 <= Offset(actions, k)
    ensures Offset(actions, k) + actions[k].length <= TotalLength(actions)
  {
    var n := |actions|;
    var init := actions[..n - 1];
    assert NonNegativeLengths(init) by {
      forall j | 0 <= j < |init| ensures init[j].length >= 0.0 {
        assert init[j] == actions[j];
      }
    }
    if k < n - 1 {
      WindowBounds(init, k);
      OffsetOfPrefix(actions, n - 1, k);
      assert init[k] == actions[k];
    } else {
      assert actions[..k] == init;
      if n > 1 {
        WindowBounds(init, n - 2);
        OffsetStep(init, n - 2);
        assert init[..n - 1] == init;
      }
    }
  }

  /**
   * With non-negative lengths the windows cover [0, TotalLength) exactly:
   * some window holds `t` if and only if 0 <= t < TotalLength.
   */
  lemma {:induction false} WindowsCoverTotal(actions: seq<Action>, t: real)
    requires NonNegativeLengths(actions)
    ensures (exists k :: 0 <= k < |actions| && InWindow(actions, k, t)) <==> 0.0 <= t < TotalLength(actions)
  {
    if exists k :: 0 <= k < |actions| && InWindow(actions, k, t) {
      var k :| 0 <= k < |actions| && InWindow(actions, k, t);
      WindowBounds(actions, k);
    }
    if 0.0 <= t < TotalLength(actions) {
      var n := |actions|;
      var init := actions[..n - 1];
      assert NonNegativeLengths(init) by {
        forall j | 0 <= j < |init| ensures init[j].length >= 0.0 {
          assert init[j] == actions[j];
        }
      }
      if t < TotalLength(init) {
        WindowsCoverTotal(init, t);
        var k :| 0 <= k < |init| && InWindow(init, k, t);
        OffsetOfPrefix(actions, n - 1, k);
        assert init[k] == actions[k];
        assert InWindow(actions, k, t);
      } else {
        assert actions[..n - 1] == init;
        assert InWindow(actions, n - 1, t);
      }
    }
  }

  class SpeEditorActionManager {
    var actions: seq<Action>
    /** The paths of defaultBindPose; the positions, rotations and scales are not modelled. */
    var defaultBindPose: seq<string>

    constructor ()
      ensures actions == [] && defaultBindPose == []
    {
      actions := [];
      defaultBindPose := [];
    }

    /**
     * Appends a new action for `clip`, positioned at its start. A missing
     * (null) clip fails, as reading its length throws before the list is
     * touched; `ok` is false exactly then and the list is unchanged.
     */
    method AddAction(clip: Option<Clip>) returns (ok: bool)
      modifies this`actions
      ensures ok <==> clip.Some?
      ensures ok ==> actions == old(actions) + [Action(clip.value, clip.value.length, 0.0)]
      ensures ok ==> TotalLength(actions) == old(TotalLength(actions)) + clip.value.length
      ensures !ok ==> actions == old(actions)
    {
      if clip.None? {
        return false;
      }
      var newAction := Action(clip.value, clip.value.length, 0.0);
      TotalLengthAppend(actions, newAction);
      actions := actions + [newAction];
      return true;
    }

    method Clear()
      modifies this`actions
      ensures actions == []
      ensures TotalLength(actions) == 0.0
    {
      actions := [];
    }

    /** The TotalTime getter: the sum of the action lengths. */
    method TotalTime() returns (total: real)
      ensures total == TotalLength(actions)
      ensures NonNegativeLengths(actions) ==> total >= 0.0
      ensures NonNegativeLengths(actions) && actions != [] ==> total >= actions[|actions| - 1].length
    {
      total := 0.0;
      var i := 0;
      while i < |actions|
        invariant 0 <= i <= |actions|
        invariant total == Offset(actions, i)
      {
        OffsetStep(actions, i);
        total := total + actions[i].length;
        i := i + 1;
      }
      assert actions[..|actions|] == actions;
      if NonNegativeLengths(actions) && actions != [] {
        WindowBounds(actions, |actions| - 1);
      }
    }

    /**
     * The action playing at global time `t` and the time inside it: the first
     * action whose window holds `t`; when none does, the last action at its
     * end; with no actions, nothing and zero.
     */
    method FindOutCurrAction(t: real) returns (found: Option<nat>, localTime: real)
      ensures actions == [] ==> found == None && localTime == 0.0
      ensures actions != [] ==> found.Some? && found.value < |actions|
      ensures (exists k :: 0 <= k < |actions| && InWindow(actions, k, t)) ==>
                && found.Some? && found.value < |actions|
                && InWindow(actions, found.value, t)
                && (forall j :: 0 <= j < found.value ==> !InWindow(actions, j, t))
                && localTime == t - Offset(actions, found.value)
                && 0.0 <= localTime < actions[found.value].length
      ensures actions != [] && (forall k :: 0 <= k < |actions| ==> !InWindow(actions, k, t)) ==>
                found == Some(|actions| - 1) && localTime == actions[|actions| - 1].length
      ensures NonNegativeLengths(actions) && 0.0 <= t < TotalLength(actions) ==>
                found.Some? && found.value < |actions| && InWindow(actions, found.value, t)
      ensures NonNegativeLengths(actions) && actions != [] && (t < 0.0 || t >= TotalLength(actions)) ==>
                found == Some(|actions| - 1) && localTime == actions[|actions| - 1].length
    {
      if NonNegativeLengths(actions) {
        WindowsCoverTotal(actions, t);
      }
      var curr := 0.0;
      localTime := 0.0;
      found := None;
      var i := 0;
      while i < |actions|
        invariant 0 <= i <= |actions|
        invariant curr == Offset(actions, i)
        invariant forall j :: 0 <= j < i ==> !InWindow(actions, j, t)
        invariant i == 0 ==> found == None && localTime == 0.0
        invariant i > 0 ==> found == Some(i - 1) && localTime == actions[i - 1].length
      {
        var a := actions[i];
        if t >= curr && t < curr + a.length {
          assert InWindow(actions, i, t);
          found := Some(i);
          localTime := t - curr;
          return;
        }
        OffsetStep(actions, i);
        curr := curr + a.length;
        found := Some(i);
        localTime := a.length;
        i := i + 1;
      }
    }

    /**
     * The path of a node relative to `root`: the names met walking up its
     * parent chain until `root` (or a null parent), joined by '/' top-down.
     */
    static method CalcPath(chain: seq<NodeRef>, root: Address) returns (path: string)
      ensures path == Join(TopDownNames(chain[..RootIndex(chain, root)]))
      ensures chain != [] && chain[0].addr == root ==> path == ""
    {
      var finalPath := "";
      var i := 0;
      while i < |chain| && chain[i].addr != root
        invariant 0 <= i <= |chain|
        invariant forall j :: 0 <= j < i ==> chain[j].addr != root
        invariant finalPath == Slashed(TopDownNames(chain[..i]))
      {
        assert chain[..i + 1] == chain[..i] + [chain[i]];
        TopDownNamesExtend(chain[..i], chain[i]);
        finalPath := "/" + chain[i].name + finalPath;
        i := i + 1;
      }
      assert i == RootIndex(chain, root);
      var names := TopDownNames(chain[..i]);
      if names != [] {
        SlashedIsJoinAfterFirst(names);
      }
      var k := IndexOf(finalPath, '/');
      if k != -1 {
        assert names != [] && k == 0;
        finalPath := finalPath[k + 1..];
      }
      path := finalPath;
    }

    /** Enqueues the children of `t`, in GetChild order, behind `queue`. */
    static method EnqueueChildren(queue: seq<Placed>, t: Placed) returns (next: seq<Placed>)
      requires |t.chain| > 0
      ensures next == queue + ChildrenPlaced(t)
    {
      var kids := ChildrenPlaced(t);
      next := queue;
      var i := 0;
      while i < |t.node.children|
        invariant 0 <= i <= |t.node.children|
        invariant next == queue + kids[..i]
      {
        var child := Placed(t.node.children[i], [NodeRef(t.chain[0].addr + [i], t.node.children[i].name)] + t.chain);
        assert kids[..i + 1] == kids[..i] + [child];
        next := next + [child];
        i := i + 1;
      }
      assert kids[..i] == kids;
    }

    /** Records the path of every node of the model, breadth-first from its root. */
    method RegisterDefaultBindPose(root: Transform)
      modifies this`defaultBindPose
      ensures defaultBindPose == BindPosePaths(root)
      ensures |defaultBindPose| == Size(root) && defaultBindPose[0] == ""
    {
      defaultBindPose := [];
      var start := Placed(root, [NodeRef(RootAddress, root.name)]);
      var q := [start];
      assert EntriesOf(q) == [Entry(root, [])];
      assert WellPlaced(start);
      while |q| > 0
        invariant AllWellPlaced(q)
        invariant defaultBindPose + LevelOrder(EntriesOf(q)) == BindPosePaths(root)
        decreases QueueSize(EntriesOf(q))
      {
        var t := q[0];
        var path := CalcPath(t.chain, RootAddress);
        VisitStep(defaultBindPose, q, path);
        q := EnqueueChildren(q[1..], t);
        defaultBindPose := defaultBindPose + [path];
      }
      assert EntriesOf(q) == [];
      BindPosePathsPerNode(root);
    }
  }
}

=== FILE: bind_pose.dfy ===
/**
 * The transform hierarchy of the reference model, reduced to named nodes, and
 * the slash-separated paths the action manager records for its bind pose.
 */
module BindPose {

  /** A transform: its name and its children in GetChild order. */
  datatype Transform = Transform(name: string, children: seq<Transform>)

  /**
   * A node's identity: the child indices leading to it from the model's root
   * transform. Distinct nodes have distinct addresses, so comparing addresses
   * stands for comparing Transform references.
   */
  type Address = seq<nat>

  const RootAddress: Address := []

  /** What walking `parent` pointers sees of a node: its identity and name. */
  datatype NodeRef = NodeRef(addr: Address, name: string)

  /** Names joined by '/', with no leading or trailing separator. */
  function Join(names: seq<string>): (path: string)
    ensures names == [] ==> path == ""
    ensures names != [] ==> names[0] <= path
  {
    if names == [] then ""
    else if |names| == 1 then names[0]
    else names[0] + "/" + Join(names[1..])
  }

  /** Every name preceded by '/', as the path loop builds it. */
  function Slashed(names: seq<string>): string
  {
    if names == [] then "" else "/" + names[0] + Slashed(names[1..])
  }

  /** Dropping the leading separator of the loop's string gives the joined names. */
  lemma {:induction false} SlashedIsJoinAfterFirst(names: seq<string>)
    requires names != []
    ensures |Slashed(names)| > 0 && Slashed(names)[0] == '/'
    ensures Slashed(names)[1..] == Join(names)
  {
    var tail := Slashed(names[1..]);
    assert Slashed(names) == "/" + (names[0] + tail);
    if |names| > 1 {
      SlashedIsJoinAfterFirst(names[1..]);
      assert tail == "/" + tail[1..];
      assert Join(names) == names[0] + "/" + tail[1..];
    } else {
      assert tail == "";
    }
  }

  /** The names of a parent chain, from its far end down to its first node. */
  function TopDownNames(chain: seq<NodeRef>): (names: seq<string>)
    ensures |names| == |chain|
    ensures forall j :: 0 <= j < |chain| ==> names[|chain| - 1 - j] == chain[j].name
  {
    if chain == [] then [] else TopDownNames(chain[1..]) + [chain[0].name]
  }

  lemma {:induction false} TopDownNamesExtend(chain: seq<NodeRef>, upper: NodeRef)
    ensures TopDownNames(chain + [upper]) == [upper.name] + TopDownNames(chain)
  {
    var got, want := TopDownNames(chain + [upper]), [upper.name] + TopDownNames(chain);
    assert |got| == |want|;
    var c, n := chain + [upper], |chain|;
    forall k | 0 <= k < |got| ensures got[k] == want[k] {
      assert got[k] == c[n - k].name;
      if k > 0 {
        assert want[k] == TopDownNames(chain)[n - 1 - (n - k)];
      }
    }
  }

  /** String.IndexOf for one character: the first position holding it, or -1. */
  function IndexOf(s: string, c: char): (i: int)
    ensures -1 <= i < |s|
    ensures i == -1 <==> c !in s
    ensures i >= 0 ==> s[i] == c && c !in s[..i]
  {
    if s == [] then -1
    else if s[0] == c then 0
    else
      var j := IndexOf(s[1..], c);
      if j == -1 then -1
      else
        assert s[..j + 1] == [s[0]] + s[1..][..j];
        j + 1
  }

  /**
   * Where walking up the chain stops: the first node that is `root`, or the
   * end of the chain (a null parent) when `root` is not on it.
   */
  function RootIndex(chain: seq<NodeRef>, root: Address): (k: nat)
    ensures k <= |chain|
    ensures forall j :: 0 <= j < k ==> chain[j].addr != root
    ensures k < |chain| ==> chain[k].addr == root
  {
    if chain == [] || chain[0].addr == root then 0 else 1 + RootIndex(chain[1..], root)
  }

  /**
   * A transform as the breadth-first walk holds it: the node and its parent
   * chain, which starts with the node itself and ends with the root.
   */
  datatype Placed = Placed(node: Transform, chain: seq<NodeRef>)

  ghost predicate WellPlaced(p: Placed)
  {
    && |p.chain| > 0
    && p.chain[0].name == p.node.name
    && p.chain[|p.chain| - 1].addr == RootAddress
    && forall j :: 0 <= j < |p.chain| - 1 ==> p.chain[j].addr != RootAddress
  }

  ghost predicate AllWellPlaced(q: seq<Placed>)
  {
    forall j :: 0 <= j < |q| ==> WellPlaced(q[j])
  }

  /** The children of a placed transform, in GetChild order, each with its chain. */
  function ChildrenPlaced(p: Placed): (kids: seq<Placed>)
    requires |p.chain| > 0
    ensures |kids| == |p.node.children|
  {
    seq(|p.node.children|, i requires 0 <= i < |p.node.children| =>
      Placed(p.node.children[i], [NodeRef(p.chain[0].addr + [i], p.node.children[i].name)] + p.chain))
  }

  /*
   * The reference definition of the recorded paths: a breadth-first walk over
   * entries that carry each node's names strictly below the root.
   */

  datatype Entry = Entry(node: Transform, names: seq<string>)

  function SumNat(s: seq<nat>): nat
  {
    if s == [] then 0 else s[0] + SumNat(s[1..])
  }

  lemma {:induction false} SumNatAppend(a: seq<nat>, b: seq<nat>)
    ensures SumNat(a + b) == SumNat(a) + SumNat(b)
  {
    if a == [] {
      assert a + b == b;
    } else {
      assert (a + b)[1..] == a[1..] + b;
      SumNatAppend(a[1..], b);
    }
  }

  /** The number of nodes of a tree. */
  function Size(t: Transform): nat
    decreases t, 1
  {
    1 + SumNat(ChildSizes(t))
  }

  function ChildSizes(t: Transform): (s: seq<nat>)
    ensures |s| == |t.children|
    decreases t, 0
  {
    seq(|t.children|, i requires 0 <= i < |t.children| => Size(t.children[i]))
  }

  function Sizes(q: seq<Entry>): (s: seq<nat>)
    ensures |s| == |q|
  {
    seq(|q|, j requires 0 <= j < |q| => Size(q[j].node))
  }

  /** The number of nodes still to be visited from a queue. */
  function QueueSize(q: seq<Entry>): nat
  {
    SumNat(Sizes(q))
  }

  function ChildEntries(e: Entry): (kids: seq<Entry>)
    ensures |kids| == |e.node.children|
  {
    seq(|e.node.children|, i requires 0 <= i < |e.node.children| =>
      Entry(e.node.children[i], e.names + [e.node.children[i].name]))
  }

  lemma QueueSizeSplit(a: seq<Entry>, b: seq<Entry>)
    ensures QueueSize(a + b) == QueueSize(a) + QueueSize(b)
  {
    assert Sizes(a + b) == Sizes(a) + Sizes(b);
    SumNatAppend(Sizes(a), Sizes(b));
  }

  /** Visiting the head of a queue replaces it by its children: one node fewer. */
  lemma VisitShrinksQueue(q: seq<Entry>)
    requires q != []
    ensures QueueSize(q[1..] + ChildEntries(q[0])) + 1 == QueueSize(q)
  {
    var kids := ChildEntries(q[0]);
    QueueSizeSplit(q[1..], kids);
    assert Sizes(kids) == ChildSizes(q[0].node);
    assert Size(q[0].node) == 1 + QueueSize(kids);
    assert Sizes(q)[1..] == Sizes(q[1..]);
  }

  /** The paths of a breadth-first walk, in visiting order. */
  function LevelOrder(q: seq<Entry>): seq<string>
    decreases QueueSize(q)
  {
    if q == [] then []
    else
      VisitShrinksQueue(q);
      [Join(q[0].names)] + LevelOrder(q[1..] + ChildEntries(q[0]))
  }

  /** The recorded paths of a whole model, starting from its root transform. */
  function BindPosePaths(root: Transform): seq<string>
  {
    LevelOrder([Entry(root, [])])
  }

  /** The walk records exactly one path per node still to be visited. */
  lemma {:induction false} LevelOrderLength(q: seq<Entry>)
    ensures |LevelOrder(q)| == QueueSize(q)
    decreases QueueSize(q)
  {
    if q != [] {
      VisitShrinksQueue(q);
      LevelOrderLength(q[1..] + ChildEntries(q[0]));
    } else {
      assert Sizes(q) == [];
    }
  }

  /** One path per node of the model, the first being the root's empty path. */
  lemma BindPosePathsPerNode(root: Transform)
    ensures |BindPosePaths(root)| == Size(root)
    ensures BindPosePaths(root)[0] == ""
  {
    LevelOrderLength([Entry(root, [])]);
    assert Sizes([Entry(root, [])]) == [Size(root)];
    assert SumNat([Size(root)]) == Size(root) + SumNat([]);
  }

  /** What a placed transform stands for in the reference walk. */
  function EntryOf(p: Placed): Entry
  {
    if p.chain == [] then Entry(p.node, [])
    else Entry(p.node, TopDownNames(p.chain[..|p.chain| - 1]))
  }

  function EntriesOf(q: seq<Placed>): (es: seq<Entry>)
    ensures |es| == |q|
  {
    seq(|q|, j requires 0 <= j < |q| => EntryOf(q[j]))
  }

  /** The children of a well-placed transform are well placed and stand for its child entries. */
  lemma ChildrenPlacedMatch(p: Placed)
    requires WellPlaced(p)
    ensures forall k :: 0 <= k < |ChildrenPlaced(p)| ==> WellPlaced(ChildrenPlaced(p)[k])
    ensures EntriesOf(ChildrenPlaced(p)) == ChildEntries(EntryOf(p))
  {
    var kids := ChildrenPlaced(p);
    var n := |p.chain|;
    forall k | 0 <= k < |kids|
      ensures WellPlaced(kids[k])
      ensures EntryOf(kids[k]) == ChildEntries(EntryOf(p))[k]
    {
      var c := kids[k].chain;
      assert c == [NodeRef(p.chain[0].addr + [k], p.node.children[k].name)] + p.chain;
      assert c[..|c| - 1] == [c[0]] + p.chain[..n - 1];
      assert TopDownNames(c[..|c| - 1]) == TopDownNames(p.chain[..n - 1]) + [c[0].name];
    }
  }

  /**
   * One step of the walk on placed transforms: the head's parent chain yields
   * its path below the root, and the queue with the head replaced by its
   * children stands for the next queue of the reference walk.
   */
  lemma VisitPlaced(q: seq<Placed>)
    requires q != []
    requires forall j :: 0 <= j < |q| ==> WellPlaced(q[j])
    ensures RootIndex(q[0].chain, RootAddress) == |q[0].chain| - 1
    ensures forall j :: 0 <= j < |q[1..] + ChildrenPlaced(q[0])| ==> WellPlaced((q[1..] + ChildrenPlaced(q[0]))[j])
    ensures LevelOrder(EntriesOf(q))
            == [Join(TopDownNames(q[0].chain[..|q[0].chain| - 1]))] + LevelOrder(EntriesOf(q[1..] + ChildrenPlaced(q[0])))
    ensures QueueSize(EntriesOf(q[1..] + ChildrenPlaced(q[0]))) < QueueSize(EntriesOf(q))
  {
    var t := q[0];
    var kids := ChildrenPlaced(t);
    var next := q[1..] + kids;
    ChildrenPlacedMatch(t);
    var es := EntriesOf(q);
    assert es[0] == EntryOf(t);
    assert EntriesOf(next) == EntriesOf(q[1..]) + EntriesOf(kids);
    assert EntriesOf(q[1..]) == es[1..];
    assert EntriesOf(next) == es[1..] + ChildEntries(es[0]);
    VisitShrinksQueue(es);
  }

  /**
   * The walk's loop step: recording the head's path and replacing the head by
   * its children keeps the recorded paths followed by the rest of the walk
   * unchanged, keeps every queued transform well placed, and shrinks the walk.
   */
  lemma VisitStep(done: seq<string>, q: seq<Placed>, path: string)
    requires q != [] && AllWellPlaced(q)
    requires path == Join(TopDownNames(q[0].chain[..RootIndex(q[0].chain, RootAddress)]))
    ensures AllWellPlaced(q[1..] + ChildrenPlaced(q[0]))
    ensures (done + [path]) + LevelOrder(EntriesOf(q[1..] + ChildrenPlaced(q[0])))
            == done + LevelOrder(EntriesOf(q))
    ensures QueueSize(EntriesOf(q[1..] + ChildrenPlaced(q[0]))) < QueueSize(EntriesOf(q))
  {
    VisitPlaced(q);
    var rest := LevelOrder(EntriesOf(q[1..] + ChildrenPlaced(q[0])));
    assert (done + [path]) + rest == done + ([path] + rest);
  }
}

=== FILE: edit_proxy.dfy ===
/**
 * The editor's handle on one special effect (SpecialEffectEditProxy): the
 * effect's offset on the preview timeline, its total time, and the dirty flag.
 *
 * The wrapped SpecialEffect is not part of this model; the two of its fields
 * the proxy uses, its element list and its total time, live on the proxy.
 */
module EditProxy {
  import opened Element
  import opened Timeline

  /**
   * The index check every by-index proxy operation performs, as written:
   * `i < 0 && i >= count`. No index satisfies both, so it never rejects and
   * an index out of range reaches the list access.
   */
  function IndexGuardAsWritten(i: int, count: nat): (rejects: bool)
    ensures !rejects
  {
    i < 0 && i >= count
  }

  /** The end time (start plus play time) of each element, in list order. */
  function EndsOf(es: seq<SpecialEffectElement>): (ends: seq<real>)
    reads es
    ensures |ends| == |es|
    ensures forall i :: 0 <= i < |es| ==> ends[i] == es[i].startTime + es[i].playTime
  {
    seq(|es|, i reads es requires 0 <= i < |es| => es[i].startTime + es[i].playTime)
  }

  class SpecialEffectEditProxy {
    /** Whether this is the effect being edited rather than a reference effect. */
    const editTarget: bool
    var isDirty: bool
    /** The effect's start on the preview timeline. */
    var startTime: real
    /** realSpe.elems */
    var elems: seq<SpecialEffectElement>
    /** realSpe.totalTime */
    var totalTime: real

    /** The effect's total time is the latest end time of its elements. */
    ghost predicate TotalTimeCurrent()
      reads this`totalTime, this`elems, elems
    {
      totalTime == LatestEnd(EndsOf(elems))
    }

    /** Wraps an effect: not dirty, starting at zero, total time recomputed. */
    constructor (elems: seq<SpecialEffectElement>, edit: bool)
      ensures this.elems == elems && editTarget == edit
      ensures !isDirty && startTime == 0.0
      ensures TotalTimeCurrent()
    {
      this.elems := elems;
      editTarget := edit;
      isDirty := false;
      startTime := 0.0;
      totalTime := 0.0;
      new;
      RecalcTotalTime();
    }

    /** From the effect's own time to the preview timeline. */
    function Trans2GlobalTime(t: real): (r: real)
      reads this
      ensures r - startTime == t
    {
      t + startTime
    }

    /** From the preview timeline to the effect's own time. */
    function Trans2LocalTime(t: real): (r: real)
      reads this
      ensures r + startTime == t
    {
      t - startTime
    }

    /** The StartTime setter: negative start times are clamped to zero. */
    method SetStartTime(value: real)
      modifies this`startTime
      ensures startTime >= 0.0
      ensures value >= 0.0 ==> startTime == value
      ensures value < 0.0 ==> startTime == 0.0
    {
      if value < 0.0 {
        startTime := 0.0;
      } else {
        startTime := value;
      }
    }

    /** Sets the effect's total time to the latest element end, and at least zero. */
    method RecalcTotalTime()
      modifies this`totalTime
      ensures TotalTimeCurrent()
      ensures totalTime >= 0.0
      ensures forall i :: 0 <= i < |elems| ==> elems[i].startTime + elems[i].playTime <= totalTime
      ensures totalTime == 0.0 || exists i :: 0 <= i < |elems| && totalTime == elems[i].startTime + elems[i].playTime
    {
      var ends := EndsOf(elems);
      var t := 0.0;
      var i := 0;
      while i < |elems|
        invariant 0 <= i <= |elems|
        invariant t == LatestEnd(ends[..i])
      {
        var e := elems[i];
        assert ends[..i + 1][..i] == ends[..i];
        if e.startTime + e.playTime > t {
          t := e.startTime + e.playTime;
        }
        i := i + 1;
      }
      assert ends[..|elems|] == ends;
      totalTime := t;
    }

    /** The IsDirty setter; the asset bookkeeping it triggers is not modelled. */
    method SetIsDirty(value: bool)
      modifies this`isDirty
      ensures isDirty == value
    {
      isDirty := value;
    }

    /**
     * Sets whether element `i` loops and marks the effect dirty. The guard
     * never rejects, so the operation always reports success.
     */
    method SetItemStateInfo(i: int, loop: bool) returns (ok: bool)
      requires 0 <= i < |elems|
      modifies this`isDirty, elems[i]
      ensures ok && isDirty
      ensures elems[i].isLoop == loop
      ensures elems[i].startTime == old(elems[i].startTime) && elems[i].playTime == old(elems[i].playTime)
      ensures elems[i].canShow == old(elems[i].canShow) && elems[i].active == old(elems[i].active)
      ensures elems[i].isPlaying == old(elems[i].isPlaying) && elems[i].currPlayTime == old(elems[i].currPlayTime)
      ensures elems[i].speedScale == old(elems[i].speedScale)
      ensures old(TotalTimeCurrent()) ==> TotalTimeCurrent()
    {
      if IndexGuardAsWritten(i, |elems|) {
        return false;
      }
      ghost var endsBefore := EndsOf(elems);
      elems[i].isLoop := loop;
      assert EndsOf(elems) == endsBefore by {
        forall j | 0 <= j < |elems| ensures EndsOf(elems)[j] == endsBefore[j] {
        }
      }
      SetIsDirty(true);
      assert EndsOf(elems) == endsBefore && endsBefore == old(EndsOf(elems));
      return true;
    }

    /**
     * Element `i`'s start on the preview timeline and its play time. The guard
     * never rejects, so the operation always reports success; an element's
     * span ends by the effect's end whenever the total time is up to date.
     */
    method GetItemTimeInfo(i: int) returns (ok: bool, start: real, length: real)
      requires 0 <= i < |elems|
      ensures ok
      ensures start - startTime == elems[i].startTime && length == elems[i].playTime
      ensures TotalTimeCurrent() ==> start + length <= startTime + totalTime
    {
      if IndexGuardAsWritten(i, |elems|) {
        return false, 0.0, 0.0;
      }
      start := Trans2GlobalTime(elems[i].startTime);
      length := elems[i].playTime;
      assert EndsOf(elems)[i] == elems[i].startTime + elems[i].playTime;
      return true, start, length;
    }

    /** Whether element `i` loops. The guard never rejects, so this always succeeds. */
    method GetItemStateInfo(i: int) returns (ok: bool, loop: bool)
      requires 0 <= i < |elems|
      ensures ok && loop == elems[i].isLoop
    {
      if IndexGuardAsWritten(i, |elems|) {
        return false, false;
      }
      return true, elems[i].isLoop;
    }

    /**
     * The by-element form of SetItemStateInfo: finds `elem` in the element
     * list by reference and sets its loop flag through the by-index form.
     * It fails, changing nothing, exactly when `elem` is not in the list.
     */
    method SetItemStateInfoOf(elem: SpecialEffectElement?, loop: bool) returns (ok: bool)
      modifies this`isDirty, elem
      ensures ok <==> elem in elems
      ensures ok ==> elem != null && elem.isLoop == loop && isDirty
      ensures ok ==> elem.startTime == old(elem.startTime) && elem.playTime == old(elem.playTime)
      ensures ok ==> elem.canShow == old(elem.canShow) && elem.active == old(elem.active)
      ensures ok ==> elem.isPlaying == old(elem.isPlaying) && elem.currPlayTime == old(elem.currPlayTime)
      ensures ok ==> elem.speedScale == old(elem.speedScale)
      ensures ok ==> old(TotalTimeCurrent()) ==> TotalTimeCurrent()
      ensures !ok ==> isDirty == old(isDirty)
      ensures !ok && elem != null ==> unchanged(elem)
    {
      ok := false;
      var index := 0;
      while index < |elems|
        invariant 0 <= index <= |elems|
        invariant forall j :: 0 <= j < index ==> elems[j] != elem
      {
        if elems[index] == elem {
          ok := SetItemStateInfo(index, loop);
          return;
        }
        index := index + 1;
      }
    }

    /** Translating to the preview timeline and back is the identity, both ways. */
    lemma TranslationsInvert(t: real)
      ensures Trans2LocalTime(Trans2GlobalTime(t)) == t
      ensures Trans2GlobalTime(Trans2LocalTime(t)) == t
    {
    }
  }
}

=== FILE: editor_model.dfy ===
/**
 * The preview clock of the special effect editor (SpecialEffectEditorModel):
 * the current play time, the reference model's play time derived from it, the
 * preview length, and the selected item.
 */
module EditorModel {
  import opened Timeline
  import opened EditProxy
  import opened RefEffects

  /**
   * The reference model's play time for an effect play time: scaled by
   * modeSpeedScale / speSpeedScale, or by modeSpeedScale alone when the effect
   * speed is at most 0.01, and clamped at zero.
   */
  function ModelPlayTime(playTime: real, modeSpeedScale: real, speSpeedScale: real): (r: real)
    ensures r >= 0.0
    ensures speSpeedScale > 0.01 ==> r * speSpeedScale == Max(0.0, playTime * modeSpeedScale)
    ensures speSpeedScale <= 0.01 ==> r == Max(0.0, playTime * modeSpeedScale)
  {
    var scaled :=
      if speSpeedScale > 0.01 then playTime * (modeSpeedScale / speSpeedScale)
      else playTime * modeSpeedScale;
    if scaled < 0.0 then 0.0 else scaled
  }

  class SpecialEffectEditorModel {
    var targetSpe: SpecialEffectEditProxy?
    var refSpeMgr: RefSpecialEffectManager
    var currPlayTime: real
    var modeSpeedScale: real
    var speSpeedScale: real
    var modelCurrPlayTime: real
    var selectItem: int

    constructor ()
      ensures targetSpe == null && fresh(refSpeMgr) && refSpeMgr.refSpeList == []
      ensures currPlayTime == 0.0 && modelCurrPlayTime == 0.0
      ensures modeSpeedScale == 1.0 && speSpeedScale == 1.0
      ensures selectItem == -1
    {
      targetSpe := null;
      refSpeMgr := new RefSpecialEffectManager();
      currPlayTime := 0.0;
      modeSpeedScale := 1.0;
      speSpeedScale := 1.0;
      modelCurrPlayTime := 0.0;
      selectItem := -1;
    }

    /** Where the edited effect ends on the preview timeline; zero without one. */
    function TargetEnd(): real
      reads this`targetSpe, targetSpe
    {
      if targetSpe != null then targetSpe.startTime + targetSpe.totalTime else 0.0
    }

    /**
     * The preview length: the later of the edited effect's end and the
     * reference effects' latest end, and at least zero.
     */
    method GetPreviewTotalTime() returns (total: real)
      ensures total == Max(TargetEnd(), LatestEnd(PreviewEnds(refSpeMgr.refSpeList)))
      ensures total >= 0.0
      ensures targetSpe != null ==> targetSpe.startTime + targetSpe.totalTime <= total
      ensures forall i :: 0 <= i < |refSpeMgr.refSpeList| ==>
                refSpeMgr.refSpeList[i].startTime + refSpeMgr.refSpeList[i].totalTime <= total
    {
      total := 0.0;
      if targetSpe != null {
        total := targetSpe.startTime + targetSpe.totalTime;
      }
      var refSpeTotalTime := refSpeMgr.GetPreviewTotalTime();
      total := Max(total, refSpeTotalTime);
    }

    /**
     * Derives the reference model's play time from the current play time. The
     * argument is not used: the time scaled is the one already recorded.
     */
    method UpdateModelCurrPlayTime(t: real)
      modifies this`modelCurrPlayTime
      ensures modelCurrPlayTime == ModelPlayTime(currPlayTime, modeSpeedScale, speSpeedScale)
      ensures modelCurrPlayTime >= 0.0
    {
      if speSpeedScale > 0.01 {
        modelCurrPlayTime := currPlayTime * (modeSpeedScale / speSpeedScale);
      } else {
        modelCurrPlayTime := currPlayTime * modeSpeedScale;
      }
      if modelCurrPlayTime < 0.0 {
        modelCurrPlayTime := 0.0;
      }
    }

    /**
     * Sets the preview play time. The model play time is derived before the
     * new time is recorded, so it follows the previous play time.
     */
    method SetCurrPlayTime(t: real)
      modifies this`modelCurrPlayTime, this`currPlayTime
      ensures currPlayTime == t
      ensures modelCurrPlayTime == ModelPlayTime(old(currPlayTime), modeSpeedScale, speSpeedScale)
      ensures modelCurrPlayTime >= 0.0
    {
      UpdateModelCurrPlayTime(t);
      currPlayTime := t;
    }

    /**
     * Selects item `i` among the edited effect's elements followed by the
     * reference effects. The range check is written `i < 0 && i >= count`
     * and never resets the selection, so every index is stored as given.
     */
    method SetItemSelectIndx(i: int)
      modifies this`selectItem
      ensures selectItem == i
    {
      var selected := i;
      var speElems := 0;
      if targetSpe != null {
        speElems := |targetSpe.elems|;
      }
      if IndexGuardAsWritten(i, speElems + refSpeMgr.GetCount()) {
        selected := -1;
      }
      selectItem := selected;
    }
  }
}

=== FILE: element.dfy ===
/**
 * One timed element of a special effect (SpecialEffectElement): when it plays,
 * whether it is shown, and its playing flag.
 *
 * The Unity game object is reduced to its `activeSelf` flag (`active`).
 * The virtual hooks the base class leaves empty (_PlayImpl, _PauseImpl,
 * _ResetImpl, _SetCurrPlayTime, _CustomOperate, UpdateSpeed) do nothing here.
 */
module Element {

  type PosReal = r: real | r > 0.0 witness 1.0

  /**
   * SpecialEffectUtility.timeEpsilon. Its value is not part of this model;
   * all that is used is that it is positive.
   */
  const TimeEpsilon: PosReal

  /**
   * float.GetHashCode, a library routine: some fixed function of the value.
   */
  const FloatHash: real -> int

  class SpecialEffectElement {
    /** The run-time class of the element, as compared by GetType(). */
    const typeTag: string

    var startTime: real
    var isLoop: bool
    var playTime: real
    var canShow: bool
    var currPlayTime: real
    var isPlaying: bool
    var speedScale: real
    /** gameObject.activeSelf */
    var active: bool

    /** A hidden element is never active: every operation below keeps this. */
    ghost predicate Valid()
      reads this
    {
      !canShow ==> !active
    }

    /** The field initialisers of the class; the game object starts as given. */
    constructor (typeTag: string, active: bool)
      ensures this.typeTag == typeTag && this.active == active
      ensures startTime == 0.0 && isLoop && playTime == 0.0
      ensures canShow && currPlayTime == 0.0 && !isPlaying && speedScale == 1.0
      ensures Valid()
    {
      this.typeTag := typeTag;
      this.active := active;
      startTime := 0.0;
      isLoop := true;
      playTime := 0.0;
      canShow := true;
      currPlayTime := 0.0;
      isPlaying := false;
      speedScale := 1.0;
    }

    /**
     * Whether `elapseTime` falls in the element's play interval: never when it
     * has no play time; from its start time on when it loops; otherwise from
     * its start time until its end, with a tolerance of TimeEpsilon.
     */
    function IsInPlayTimeInterval(elapseTime: real): (r: bool)
      reads this
      ensures playTime <= 0.0 ==> !r
      ensures playTime > 0.0 && isLoop ==> (r <==> elapseTime >= startTime)
      ensures playTime > 0.0 && !isLoop ==>
                (r <==> elapseTime >= startTime && elapseTime - (startTime + playTime) < TimeEpsilon)
      ensures r ==> startTime <= elapseTime
      ensures r && !isLoop ==> elapseTime < startTime + playTime + TimeEpsilon
    {
      if playTime <= 0.0 then false
      else if isLoop then elapseTime >= startTime
      else elapseTime - (startTime + playTime) < TimeEpsilon && elapseTime >= startTime
    }

    /** The time inside the element: the inverse of offsetting by its start time. */
    function CalcLocalTime(elapseTime: real): (r: real)
      reads this
      ensures startTime + r == elapseTime
      ensures IsInPlayTimeInterval(elapseTime) ==> r >= 0.0
      ensures IsInPlayTimeInterval(elapseTime) && !isLoop ==> r < playTime + TimeEpsilon
    {
      elapseTime - startTime
    }

    /** Field-wise equality on the timing fields of elements of the same class. */
    function Equals(o: SpecialEffectElement?): (r: bool)
      reads this, o
      ensures r <==> o != null && typeTag == o.typeTag && startTime == o.startTime
                     && playTime == o.playTime && isLoop == o.isLoop
    {
      if o == null then false
      else if o == this then true
      else if typeTag != o.typeTag then false
      else if startTime != o.startTime then false
      else if playTime != o.playTime then false
      else if isLoop != o.isLoop then false
      else true
    }

    /** The hash depends on the start time only. */
    function GetHashCode(): (h: int)
      reads this
      ensures h == FloatHash(startTime)
    {
      FloatHash(startTime)
    }

    function IsPlaying(): (r: bool)
      reads this
      ensures r <==> isPlaying
    {
      isPlaying
    }

    /** Whether the game object is active. */
    function IsEnable(): (r: bool)
      reads this
      ensures r <==> active
    {
      active
    }

    /**
     * Copies the timing fields of `o` (the editor build of the source; the
     * client build always fails). Fails on null and on another class.
     */
    method CopyValues(o: SpecialEffectElement?) returns (ok: bool)
      modifies this`startTime, this`playTime, this`isLoop
      ensures ok <==> o != null && (o == this || o.typeTag == typeTag)
      ensures ok ==> startTime == old(o.startTime) && playTime == old(o.playTime)
                     && isLoop == old(o.isLoop) && Equals(o)
      ensures !ok ==> startTime == old(startTime) && playTime == old(playTime) && isLoop == old(isLoop)
    {
      if o == null {
        return false;
      }
      if o == this {
        return true;
      }
      if typeTag != o.typeTag {
        return false;
      }
      startTime := o.startTime;
      playTime := o.playTime;
      isLoop := o.isLoop;
      return true;
    }

    /** The gate: the active flag follows `b` only while the element may be shown. */
    method SetEnable(b: bool)
      modifies this`active
      ensures active == if canShow then b else old(active)
      ensures old(Valid()) ==> Valid()
    {
      if canShow {
        active := b;
      }
    }

    method Play()
      modifies this`isPlaying
      ensures isPlaying
    {
      isPlaying := true;
    }

    method Pause()
      modifies this`isPlaying
      ensures !isPlaying
    {
      isPlaying := false;
    }

    method Stop()
      modifies this`isPlaying
      ensures !isPlaying
    {
      Pause();
    }

    /** Restarts playback without changing whether the element is playing. */
    method Reset()
      modifies this`isPlaying
      ensures isPlaying == old(isPlaying)
    {
      if isPlaying {
        Play();
      } else {
        Pause();
      }
    }

    method SetCurrPlayTime(t: real)
      modifies this`currPlayTime
      ensures currPlayTime == t
    {
      currPlayTime := t;
    }

    /**
     * Shows the element when `elapseTime` is inside its play interval and it
     * may be shown; outside the interval an active element is stopped and
     * deactivated (deactivation again subject to the gate).
     */
    method UpdateState(elapseTime: real)
      modifies this`active, this`isPlaying
      ensures IsInPlayTimeInterval(elapseTime) ==>
                isPlaying == old(isPlaying) && active == (old(active) || canShow)
      ensures !IsInPlayTimeInterval(elapseTime) && old(active) ==> !isPlaying && active == !canShow
      ensures !IsInPlayTimeInterval(elapseTime) && !old(active) ==> !active && isPlaying == old(isPlaying)
      ensures old(Valid()) && !IsInPlayTimeInterval(elapseTime) ==> !active
      ensures old(Valid()) ==> Valid()
    {
      var isInPlayInterval := IsInPlayTimeInterval(elapseTime);
      if isInPlayInterval {
        if !IsEnable() && canShow {
          SetEnable(true);
        }
      } else {
        if IsEnable() {
          Stop();
          SetEnable(false);
        }
      }
    }

    /**
     * The CanShow setter: hiding deactivates the element; showing re-runs
     * UpdateState at the element's current play time.
     */
    method SetCanShow(value: bool)
      modifies this`canShow, this`active, this`isPlaying
      ensures canShow == value
      ensures !value ==> !active && isPlaying == old(isPlaying)
      ensures value && IsInPlayTimeInterval(currPlayTime) ==> active && isPlaying == old(isPlaying)
      ensures value && !IsInPlayTimeInterval(currPlayTime) ==>
                !active && (old(active) ==> !isPlaying) && (!old(active) ==> isPlaying == old(isPlaying))
      ensures Valid()
    {
      canShow := value;
      if !value {
        active := false;
      } else {
        UpdateState(currPlayTime);
      }
    }

    /**
     * Starts an element that should be playing at `elapseTime` but is not,
     * seeking it to that time at unit speed and restoring its speed scale.
     */
    method UpdatePlayingState(elapseTime: real)
      modifies this`isPlaying, this`speedScale, this`currPlayTime
      ensures speedScale == old(speedScale)
      ensures IsInPlayTimeInterval(elapseTime) && !old(isPlaying) ==> isPlaying && currPlayTime == elapseTime
      ensures !(IsInPlayTimeInterval(elapseTime) && !old(isPlaying)) ==>
                isPlaying == old(isPlaying) && currPlayTime == old(currPlayTime)
    {
      if IsInPlayTimeInterval(elapseTime) {
        if !IsPlaying() {
          Play();
          var oldScale := speedScale;
          SetSpeedScale(1.0);
          SetCurrPlayTime(elapseTime);
          Play();
          SetSpeedScale(oldScale);
        }
      }
    }

    method SetSpeedScale(scale: real)
      modifies this`speedScale
      ensures speedScale == scale
    {
      speedScale := scale;
    }
  }

  /** Equal elements have equal hash codes, as .NET requires of Equals and GetHashCode. */
  lemma EqualElementsHashEqually(a: SpecialEffectElement, b: SpecialEffectElement)
    requires a.Equals(b)
    ensures a.GetHashCode() == b.GetHashCode()
  {
  }

  /** Element equality is symmetric. */
  lemma EqualsIsSymmetric(a: SpecialEffectElement, b: SpecialEffectElement)
    ensures a.Equals(b) == b.Equals(a)
  {
  }
}

=== FILE: ref_effect_manager.dfy ===
/**
 * The reference effects shown beside the edited one (RefSpecialEffectManager):
 * a list of proxies and the length of the preview they need.
 */
module RefEffects {
  import opened Timeline
  import opened EditProxy

  /** Where each proxy ends on the preview timeline, in list order. */
  function PreviewEnds(list: seq<SpecialEffectEditProxy>): (ends: seq<real>)
    reads list
    ensures |ends| == |list|
    ensures forall i :: 0 <= i < |list| ==> ends[i] == list[i].startTime + list[i].totalTime
  {
    seq(|list|, i reads list requires 0 <= i < |list| => list[i].startTime + list[i].totalTime)
  }

  class RefSpecialEffectManager {
    var refSpeList: seq<SpecialEffectEditProxy>

    constructor ()
      ensures refSpeList == []
    {
      refSpeList := [];
    }

    method Add(spe: SpecialEffectEditProxy)
      modifies this`refSpeList
      ensures refSpeList == old(refSpeList) + [spe]
    {
      refSpeList := refSpeList + [spe];
    }

    /**
     * Empties the list. Destroying each proxy's effect first is an editor
     * operation that is not part of this model.
     */
    method Clear()
      modifies this`refSpeList
      ensures refSpeList == []
      ensures LatestEnd(PreviewEnds(refSpeList)) == 0.0
    {
      refSpeList := [];
    }

    /** The number of reference effects. */
    function GetCount(): (n: nat)
      reads this`refSpeList
      ensures n == |refSpeList|
    {
      |refSpeList|
    }

    /** The proxy at index `i`, or null when `i` is out of range. */
    method GetAt(i: int) returns (spe: SpecialEffectEditProxy?)
      ensures 0 <= i < GetCount() ==> spe == refSpeList[i]
      ensures (i < 0 || i >= GetCount()) ==> spe == null
      ensures spe != null ==> spe in refSpeList
    {
      if i < 0 || i >= GetCount() {
        return null;
      }
      return refSpeList[i];
    }

    /** The preview length the reference effects need: their latest end, and at least zero. */
    method GetPreviewTotalTime() returns (total: real)
      ensures total == LatestEnd(PreviewEnds(refSpeList))
      ensures total >= 0.0
      ensures forall i :: 0 <= i < |refSpeList| ==> refSpeList[i].startTime + refSpeList[i].totalTime <= total
      ensures total == 0.0 || exists i :: 0 <= i < |refSpeList| && total == refSpeList[i].startTime + refSpeList[i].totalTime
    {
      var ends := PreviewEnds(refSpeList);
      total := 0.0;
      var i := 0;
      while i < |refSpeList|
        invariant 0 <= i <= |refSpeList|
        invariant total == LatestEnd(ends[..i])
      {
        var spe := refSpeList[i];
        assert ends[..i + 1][..i] == ends[..i];
        total := Max(total, spe.startTime + spe.totalTime);
        i := i + 1;
      }
      assert ends[..|refSpeList|] == ends;
    }
  }
}

=== FILE: timeline.dfy ===
/**
 * Time arithmetic shared by the effect proxy, the reference-effect manager and
 * the editor model. Times are modelled as reals, so sums and maxima are exact.
 */
module Timeline {

  /**
   * The running maximum the source keeps while scanning a list of end times:
   * it starts at zero and is raised to every end time that exceeds it.
   * The scan runs front to back, so the definition peels the last element.
   */
  function LatestEnd(ends: seq<real>): (r: real)
    ensures r >= 0.0
    ensures forall i :: 0 <= i < |ends| ==> ends[i] <= r
    ensures r == 0.0 || exists i :: 0 <= i < |ends| && r == ends[i]
  {
    if ends == [] then 0.0
    else
      var before := LatestEnd(ends[..|ends| - 1]);
      if ends[|ends| - 1] > before then ends[|ends| - 1] else before
  }

  /** The larger of two times (Mathf.Max). */
  function Max(a: real, b: real): (r: real)
    ensures r >= a && r >= b
    ensures r == a || r == b
  {
    if a >= b then a else b
  }
}

=== FILE: wrappers.dfy ===
/** Optional values, standing in for the source's nullable references. */
module Wrappers {

  datatype Option<+T> = None | Some(value: T)
}
